=== FILE: README.md ===
# QVC appointment bot: log, credentials, monitor poll and captcha hand-off

A Dafny model of the sequential logic inside `app.py` of the QVC appointment
bot, the program that drives the Qatar Visa Center booking site, waits for a
human to solve the captcha, and then polls for open appointment dates. The
browser automation and the Flask dashboard around that logic are left out.
What is modelled:

- **The bounded, coalescing log** (`LogHistory`, `log` at app.py:22-41). The
  state is the history (`LOG_HISTORY`), the no-date marker
  (`last_no_date_msg`) and the status field `last_update`. Each call stamps
  the line `[ts] msg`. A message containing `No dates yet` overwrites the
  newest entry when it equals the marker; otherwise it is appended and becomes
  the marker. Any other message is appended and clears the marker. At most one
  oldest entry is dropped, so the history keeps at most three lines. The time
  stamp is a parameter. The text written to `logs.txt` is `LogText`, the
  entries joined by newlines.
- **The credentials file** (`Credentials`, `read_credentials` at
  app.py:43-50). The file is a sequence of lines, and an absent file is the
  empty sequence. A line holding `=` is stripped with Python's `str.strip`
  whitespace set and cut at its first `=`. Only the keys PASSPORT, VISA, NUMBER
  and EMAIL are kept, and the last assignment wins. The result is a
  four-field record whose fields default to `""`.
- **One monitor poll** (`Monitor`, app.py:201-209). The detected date labels
  set `date_found` and `date_matches` and choose the message for `log`. That
  message is either `ℹ️ No dates yet` or `🔔 REAL DATE AVAILABLE! ` followed
  by the Python `repr` of the label list. `Poll` composes this with `log`.
- **The captcha mailbox** (`Captcha`, app.py:133-139 and the `/captcha` route
  at app.py:311-314). The solution file is an `Option<string>`. The bot clears
  it and then checks it after each sleep. It proceeds only on a value that is
  non-empty after stripping. The dashboard writes the stripped form field only
  when something is left. The wait is modelled over a finite trace: the
  submissions made before each check, one round per check.

`Text` holds the Python string operations the program relies on: `isspace`,
`strip`, the `in` substring test, the first-separator search inside
`split("=", 1)`, `join` and, as the partner of
`join`, `split`.

Notes on the code:

- Coalescing is keyed on the marker. A message containing `No dates yet`
  overwrites the newest entry exactly when the history is non-empty and the
  message equals the message of the immediately preceding `log` call: any
  message without `No dates yet` clears the marker (app.py:32-34).
- The hit message renders the labels with Python's list `repr`
  (app.py:206). So a label that itself contains `No dates yet` makes a hit
  message coalescible. `HitAppendsUnlessRepeated` states exactly when a hit
  line is appended.

## Model

| member | source | states |
|---|---|---|
| Text.Strip | app.py:48 | the result is the input with a whitespace-only prefix and suffix removed (Python `isspace` set), and it neither starts nor ends with whitespace |
| Text.StripIdempotent | app.py:137 | stripping an already stripped value changes nothing |
| Text.StripUnpadded | app.py:311 | text that neither starts nor ends with whitespace is left alone by stripping |
| Text.StripLineEnd | app.py:46-48 | the newline that line iteration leaves at the end of a line is removed by stripping |
| Text.StripKeeps | app.py:47-48 | a non-whitespace character such as `=` survives stripping, so a line with `=` still has one after `strip()` |
| Text.Contains | app.py:26 | `sub in s` holds exactly when `sub` occurs at some position of `s` |
| Text.ContainsAfterPrefix | app.py:24 | text put in front of a string keeps its occurrences, so a `[ts] msg` line contains whatever `msg` contains |
| Text.Find | app.py:48 | the position found holds the character and no earlier position does; None exactly when it is absent |
| Text.FindFirst | app.py:48 | the first occurrence of a character is the position the first-separator search reports |
| Text.SplitJoin | app.py:38 | splitting the newline-joined entries at newlines gives back the entries when none contains a newline |
| Text.SplitFirstPiece | app.py:38 | a separator-free piece followed by a separator splits off as the first piece |
| Text.JoinSplit | app.py:38 | joining the pieces of a split gives back the text |
| Text.Join | app.py:38 | `"\n".join` of the entries; `SplitJoin` and `JoinSplit` state that it and `Split` undo each other |
| LogHistory.Log | app.py:22-36 | the new line `[ts] msg` is always the newest entry; the marker becomes `msg` for a no-date message and `""` otherwise; `last_update` is `ts`; a history of at most 3 stays at most 3 |
| LogHistory.InitValid | app.py:18-20 | the start state (empty history, empty marker) satisfies the log invariant |
| LogHistory.LogPreservesValid | app.py:25-36 | each call keeps the invariant: at most 3 entries, and a non-empty marker is a no-date message whose line, stamped with `last_update`, is the newest entry |
| LogHistory.LogAppendsOrReplaces | app.py:26-36 | a repeat of the marker message overwrites the newest entry and keeps the length; any other message is appended after the old entries in order, and only the oldest is dropped at the bound |
| LogHistory.OtherMessageAppends | app.py:32-36 | a message without `No dates yet` is appended, clears the marker, and only the oldest entry may go |
| LogHistory.NewNoDateMessageAppends | app.py:26-31 | a no-date message different from the marker is appended and becomes the marker |
| LogHistory.RepeatReplacesInPlace | app.py:27-28 | under the invariant the emptiness guard always holds for a repeat, the overwritten entry is the same no-date message's earlier line, and only the newest entry changes |
| LogHistory.HistoryBounded | app.py:35-36 | from process start, any sequence of calls leaves at most 3 entries |
| LogHistory.RepeatedNoDateCoalesces | app.py:26-36 | N identical no-date calls leave one line for the message carrying the Nth time stamp, after what the first call left in front of it |
| LogHistory.LogTextRecoversHistory | app.py:37-38 | the text written to the log file determines the history when no entry contains a newline |
| LogHistory.LogText | app.py:37-38 | the text written to `logs.txt`; `LogTextRecoversHistory` states that splitting it at newlines gives the history back |
| Credentials.Entry | app.py:47-48 | a line carries an entry exactly when it holds `=`; the key holds no `=`, and key, `=` and value together are the stripped line |
| Credentials.Apply | app.py:49 | an entry assigning a known key sets that key to its value and leaves the other three; any other entry changes nothing |
| Credentials.ReadCredentials | app.py:43-50 | the fold of `Apply` over the file's entries from four `""` fields; `ReadCredentialsFinal`, `LastLineWins`, `IgnoredLine` and `AbsentFileGivesDefaults` state what it returns |
| Credentials.FinalValueStep | app.py:47-49 | one more line moves a key to that line's value exactly when the line assigns the key |
| Credentials.ReadEntriesFinal | app.py:46-49 | after the entries, each known key holds the value of the last entry assigning it, or `""` if none does |
| Credentials.ReadCredentialsFinal | app.py:43-50 | each of PASSPORT, VISA, NUMBER and EMAIL holds the value of the last line assigning it, or `""` if no line does |
| Credentials.FinalValueUnique | app.py:44-49 | that final value is unique, so it pins the result down |
| Credentials.AbsentFileGivesDefaults | app.py:44-45 | without a credentials file all four fields are `""` |
| Credentials.EntriesAppend | app.py:46 | the lines of a file split in two parse as the two parts do |
| Credentials.IgnoredEntry | app.py:47-49 | an entry with an unknown key, or no entry, changes nothing wherever it stands |
| Credentials.IgnoredLine | app.py:47-49 | a line without `=` or with an unknown key changes nothing wherever it stands in the file |
| Credentials.AssignmentEntry | app.py:48 | a line `key=value` followed by a newline, whose key starts with a non-blank and holds no `=` and whose value does not end in whitespace, carries exactly that key and value, even when the value contains `=` |
| Credentials.EntryOfStrippedLine | app.py:47-48 | a line that strips to `key=value` with no `=` in the key carries exactly that key and value |
| Credentials.FirstSeparatorUnique | app.py:48 | a text has only one cut at its first `=`, so key and value are determined |
| Credentials.ReadOneMoreLine | app.py:46-49 | reading one more line applies that line's entry to what was read before |
| Credentials.LastLineWins | app.py:46-49 | a later `KEY=value` line, whose value does not end in whitespace, sets the key to `value` whatever came before |
| Credentials.OtherLineKeeps | app.py:49 | a line that does not assign a key leaves that key as it was |
| Monitor.Decide | app.py:201-209 | `date_found` holds exactly when labels were detected; `date_matches` equals the labels; the message is `ℹ️ No dates yet` exactly when nothing was detected, and otherwise the hit message |
| Monitor.StrRepr | app.py:206 | a label's `repr` starts and ends with the same quote, which is `"` exactly when the label holds `'` and no `"`; reading the inside back as a Python literal (`Unescape`) gives the label; a label of printable ASCII without quotes or backslashes comes out between single quotes unchanged |
| Monitor.UnescapeEscapeAll | app.py:206 | under either quote, reading the escaped text back gives the text, for every text |
| Monitor.UnescapeChar | app.py:206 | each escaped character, including `\\`, the quote, `\t`, `\n`, `\r` and `\xhh`, reads back as that character whatever follows it |
| Monitor.ListRepr | app.py:206 | the list renders as `[]` exactly when it is empty; labels of plain characters appear all of them, in order, each between single quotes, separated by `, ` |
| Monitor.HitMessage | app.py:206 | the hit message starts with `🔔 REAL DATE AVAILABLE! ` followed by a non-empty list rendering, is never the no-slot message, and for plain labels is the prefix followed by every label quoted in order |
| Monitor.ItemsQuoted | app.py:206 | for labels of plain characters, the items inside the brackets equal the reference rendering built from the last label backwards: every label quoted, in order, separated by `, ` |
| Monitor.QuotedCons | app.py:206 | the reference rendering also splits off the first label followed by `, ` |
| Monitor.HitMessageRendersLabels | app.py:206 | the labels `12 Jan` and `15 Jan` give exactly `🔔 REAL DATE AVAILABLE! ['12 Jan', '15 Jan']` |
| Monitor.Poll | app.py:205-209 | a poll sets `date_found` exactly when labels were detected and `date_matches` to them, stamps `last_update`, makes its message's line the newest log entry, keeps the log within three entries, and an empty poll leaves the no-date marker set |
| Monitor.NoDatesMessageCoalesces | app.py:209 | the message of an empty poll contains `No dates yet`, so the log coalesces it |
| Monitor.HitAfterNoDatesAppends | app.py:205-206 | a hit right after an empty poll is appended, and the empty poll's line stays right before it |
| Monitor.HitAppendsUnlessRepeated | app.py:206 | a hit line is appended, with the old entries kept in order and only the oldest dropped, unless the previous call logged the very same hit message |
| Monitor.EmptyPollsCoalesce | app.py:207-209 | N empty polls give `date_found` false, `date_matches` empty, and one no-date line carrying the Nth time stamp |
| Monitor.EmptyPollsAddOneLine | app.py:195-209 | after any other message, N empty polls add exactly one line, the no-date line with the Nth time stamp |
| Captcha.Poll | app.py:136-138 | the bot proceeds exactly when the file exists and is non-blank after stripping, and then with the stripped content, which is non-empty and already stripped |
| Captcha.Submit | app.py:311-313 | a non-blank submission, stripped, is exactly what the next poll returns; a blank one leaves the file as it was |
| Captcha.Clear | app.py:133 | after the removal the next check finds nothing, whatever the file held |
| Captcha.SubmitAndLog | app.py:311-314 | the route writes the file as `Submit` does and logs the received line only for a non-blank submission |
| Captcha.LastSolution | app.py:311-313 | the solution left by a batch of submissions is non-empty and already stripped |
| Captcha.SubmitAllKeepsLast | app.py:311-313 | after several submissions the file holds the last non-blank one stripped, or is unchanged if all were blank |
| Captcha.AwaitSolution | app.py:134-138 | whatever the wait returns is non-empty and already stripped |
| Captcha.CaptchaStep | app.py:133-138 | the step returns only a solution submitted during the wait, the stripped last one of the first round that had one, and keeps waiting exactly as long as no round had one |
| Captcha.QuietRound | app.py:134-138 | a round without a non-blank submission leaves the cleared file cleared and the bot waiting |
| Captcha.SolvedRound | app.py:134-138 | a round with a non-blank submission ends the wait with that round's stripped last solution |
| Captcha.AwaitFindsFirstSolution | app.py:133-138 | after the clear, the wait returns the stripped last solution of the first round that had one |
| Captcha.AwaitReturnsOnlySolutions | app.py:133-138 | whatever the wait returns was submitted during the wait, in the first round that had a solution |
| Captcha.AwaitWaitsWhileUnsolved | app.py:134-138 | the bot keeps waiting exactly as long as no round had a non-blank submission |
| Captcha.StaleSolutionIgnored | app.py:133-138 | a solution present before the clear is never returned, and the result is the same whatever the file held |
| Captcha.SubmittedValueUsed | app.py:133-139 | after quiet rounds, a single stripped non-blank submission is exactly the value the bot proceeds with |
| Captcha.StaleThenFreshSolution | app.py:133-139 | with a stale `OLD9` in the file, one quiet check and then `AB12` submitted, the bot proceeds with exactly `AB12` |

## Left out

- Browser workflow (app.py:76-191): navigation, clicks, form fills, selector waits and the optional-popup `try/except` blocks are Playwright calls with no logic of their own. The order of steps and their log lines are not modelled.
- Outer restart loop (app.py:74-77, 215-217): it catches everything, records the error, logs and relaunches the browser. Restarting at the first step and scoping resources per attempt are therefore not modelled.
- Monitor error branch (app.py:210-213): it records an exception message and backs off. Exceptions come from the browser, which is left out.
- Captcha capture and fill (app.py:129-132, 139-140): taking the element screenshot and its `if cap_el` branch, and the log lines around the wait, are browser I/O.
- Slot detection (app.py:60-65): a CSS selector query, so its result is an input sequence of labels.
- Screenshots and artifacts (app.py:52-58, 202-204): file I/O.
- Persistence (app.py:37-41): the `logs.txt` and `status.json` writes and JSON serialisation are left out. The log file's content is `LogText`.
- Timing: `WAIT_TIME`, `POLL_INTERVAL`, the one-second captcha check and the two-second backoff are sleeps. So the property that each poll branch sleeps the same time is not modelled.
- Unbounded captcha wait: the loop at app.py:134-138 may never end. It is modelled over a finite trace of rounds, and None means the bot is still waiting.
- Clock: `datetime.now` and `time.time` are replaced by time-stamp parameters.
- Concurrency: the dashboard thread calls `log` (app.py:314) and writes the solution file concurrently with the bot, over unsynchronised globals. The model treats each call as one atomic step. Thread startup (app.py:322-331) is left out.
- Dashboard (app.py:220-319): Flask routes, the HTML template and static file serving, except the `/captcha` route's mailbox write and log call.
- File reading in `read_credentials`: line splitting and newline translation by Python's text-mode file iteration are left out. The input is already a sequence of lines.
- Captcha.Submit: the file is written and read back in text mode, so a `\r` or `\r\n` inside a submission comes back as `\n`, and a submission the file encoding cannot hold raises after `open` has already emptied the file, so nothing is logged. The model has no newline translation and no encoding: it reads back exactly what was written and writes and logs such a submission like any other.
- Monitor.ListRepr: characters outside ASCII are kept as they are. Python's `repr` escapes the non-printable ones, which would need the Unicode database. The contract pins the full rendering only for labels of plain characters; for other labels each label's rendering is stated by `StrRepr` (quote choice and read-back), but the list as a whole is not.
- Monitor.HitMessage: its exact text is stated for labels of plain characters only, for the same reason as `Monitor.ListRepr`.

=== FILE: captcha.dfy ===
/** The captcha hand-off between the bot and the dashboard (app.py): a
    solution file that the bot removes before waiting, the dashboard's
    `/captcha` route writes, and the bot polls once a second. */
module Captcha {
  import opened Wrappers
  import opened Text
  import opened LogHistory

  /** The solution file: None when it does not exist, else its content. */
  type Mailbox = Option<string>

  /** Start of the message the `/captcha` route logs. */
  const ReceivedPrefix := "\U{1F511} Captcha solution received: "

  /** The bot removes any solution file before it starts waiting, so the
      next check finds nothing whatever the file held. */
  function Clear(b: Mailbox): (r: Mailbox)
    ensures Poll(r).None?
  {
    None
  }

  /** One check of the file by the waiting bot: it proceeds only with a
      value that is non-empty after stripping, and uses it stripped. */
  function Poll(b: Mailbox): (r: Option<string>)
    ensures r.Some? <==> b.Some? && Strip(b.value) != ""
    ensures r.Some? ==> r.value == Strip(b.value)
    ensures r.Some? ==> r.value != "" && Strip(r.value) == r.value
  {
    StripIdempotentAll();
    match b
    case Some(text) => if Strip(text) != "" then Some(Strip(text)) else None
    case None => None
  }

  /** The `/captcha` route: the submitted form field is stripped and
      written only when something is left; otherwise the file is as it
      was. A written solution is exactly what the next poll returns. */
  function Submit(b: Mailbox, form: string): (r: Mailbox)
    ensures Strip(form) != "" ==> Poll(r) == Some(Strip(form))
    ensures Strip(form) == "" ==> r == b
  {
    var sol := Strip(form);
    if sol != "" then
      StripIdempotent(form);
      Some(sol)
    else b
  }

  /** The `/captcha` route together with its log line, which is written
      only for an accepted solution. */
  function SubmitAndLog(b: Mailbox, s: LogState, ts: string, form: string): (r: (Mailbox, LogState))
    ensures r.0 == Submit(b, form)
    ensures Strip(form) == "" ==> r.1 == s
    ensures Strip(form) != "" ==> r.1 == Log(s, ts, ReceivedPrefix + Strip(form))
  {
    var sol := Strip(form);
    if sol != "" then (Submit(b, form), Log(s, ts, ReceivedPrefix + sol)) else (b, s)
  }

  /** The solution the last non-blank submission of `forms` leaves. */
  function LastSolution(forms: seq<string>): (r: Option<string>)
    ensures r.Some? ==> r.value != "" && Strip(r.value) == r.value
  {
    if |forms| == 0 then None
    else if Strip(forms[|forms| - 1]) != "" then
      StripIdempotent(forms[|forms| - 1]);
      Some(Strip(forms[|forms| - 1]))
    else LastSolution(forms[..|forms| - 1])
  }

  /** The file after the submissions `forms`, in order. */
  function SubmitAll(b: Mailbox, forms: seq<string>): Mailbox
    decreases |forms|
  {
    if |forms| == 0 then b else Submit(SubmitAll(b, forms[..|forms| - 1]), forms[|forms| - 1])
  }

  /** Only the last non-blank submission counts; blank ones leave the file
      alone. */
  lemma {:induction false} SubmitAllKeepsLast(b: Mailbox, forms: seq<string>)
    ensures SubmitAll(b, forms) == (if LastSolution(forms).Some? then LastSolution(forms) else b)
    decreases |forms|
  {
    if |forms| > 0 {
      SubmitAllKeepsLast(b, forms[..|forms| - 1]);
    }
  }

  /** The wait loop: `rounds[i]` are the submissions made while the bot
      sleeps before its i-th check. The result is the value the bot
      proceeds with, or None if it is still waiting when the rounds run
      out. */
  function AwaitSolution(b: Mailbox, rounds: seq<seq<string>>): (r: Option<string>)
    ensures r.Some? ==> r.value != "" && Strip(r.value) == r.value
    decreases |rounds|
  {
    if |rounds| == 0 then None
    else
      var b' := SubmitAll(b, rounds[0]);
      match Poll(b')
      case Some(v) => Some(v)
      case None => AwaitSolution(b', rounds[1..])
  }

  /** The captcha step: clear, then wait. The bot proceeds only with a
      solution submitted during the wait, the first round's that had one,
      and keeps waiting exactly as long as no round had one. */
  function CaptchaStep(stale: Mailbox, rounds: seq<seq<string>>): (r: Option<string>)
    ensures r.Some? ==> exists i :: FirstSolvedAt(rounds, i, r.value)
    ensures r.None? <==> forall j :: 0 <= j < |rounds| ==> LastSolution(rounds[j]).None?
  {
    var r := AwaitSolution(Clear(stale), rounds);
    AwaitWaitsWhileUnsolved(rounds);
    if r.Some? then AwaitReturnsOnlySolutions(rounds, r.value); r else r
  }

  /** Round `i` is the first with a non-blank submission, and `v` is the
      stripped last such submission of that round. */
  ghost predicate FirstSolvedAt(rounds: seq<seq<string>>, i: int, v: string) {
    && 0 <= i < |rounds|
    && (forall j :: 0 <= j < i ==> LastSolution(rounds[j]).None?)
    && LastSolution(rounds[i]) == Some(v)
  }

  /** A round without a non-blank submission leaves a cleared file
      cleared, and the bot keeps waiting. */
  lemma QuietRound(rounds: seq<seq<string>>)
    requires |rounds| > 0 && LastSolution(rounds[0]).None?
    ensures AwaitSolution(None, rounds) == AwaitSolution(None, rounds[1..])
  {
    SubmitAllKeepsLast(None, rounds[0]);
  }

  /** Once a round has a non-blank submission the bot proceeds with its
      stripped last one. */
  lemma SolvedRound(rounds: seq<seq<string>>, v: string)
    requires |rounds| > 0 && LastSolution(rounds[0]) == Some(v)
    ensures AwaitSolution(None, rounds) == Some(v)
  {
    SubmitAllKeepsLast(None, rounds[0]);
    assert SubmitAll(None, rounds[0]) == Some(v);
    assert Poll(Some(v)) == Some(v);
  }

  /** Waiting on a cleared file returns the stripped last non-blank
      submission of the first round that had one. */
  lemma {:induction false} AwaitFindsFirstSolution(rounds: seq<seq<string>>, i: int, v: string)
    requires FirstSolvedAt(rounds, i, v)
    ensures AwaitSolution(None, rounds) == Some(v)
    decreases i
  {
    if i == 0 {
      SolvedRound(rounds, v);
    } else {
      QuietRound(rounds);
      assert FirstSolvedAt(rounds[1..], i - 1, v) by {
        forall j | 0 <= j < i - 1 ensures LastSolution(rounds[1..][j]).None? {
          assert rounds[1..][j] == rounds[j + 1];
        }
      }
      AwaitFindsFirstSolution(rounds[1..], i - 1, v);
    }
  }

  /** Whatever waiting on a cleared file returns is such a solution. */
  lemma {:induction false} AwaitReturnsOnlySolutions(rounds: seq<seq<string>>, v: string)
    requires AwaitSolution(None, rounds) == Some(v)
    ensures exists i :: FirstSolvedAt(rounds, i, v)
    decreases |rounds|
  {
    match LastSolution(rounds[0])
    case Some(w) =>
      SolvedRound(rounds, w);
      assert FirstSolvedAt(rounds, 0, v);
    case None =>
      QuietRound(rounds);
      AwaitReturnsOnlySolutions(rounds[1..], v);
      var i :| FirstSolvedAt(rounds[1..], i, v);
      assert FirstSolvedAt(rounds, i + 1, v) by {
        forall j | 0 <= j < i + 1 ensures LastSolution(rounds[j]).None? {
          if j > 0 { assert rounds[j] == rounds[1..][j - 1]; }
        }
      }
  }

  /** The bot keeps waiting exactly as long as no round had a non-blank
      submission. */
  lemma {:induction false} AwaitWaitsWhileUnsolved(rounds: seq<seq<string>>)
    ensures AwaitSolution(None, rounds).None? <==> forall j :: 0 <= j < |rounds| ==> LastSolution(rounds[j]).None?
    decreases |rounds|
  {
    if |rounds| > 0 {
      match LastSolution(rounds[0])
      case Some(w) =>
        SolvedRound(rounds, w);
      case None =>
        QuietRound(rounds);
        AwaitWaitsWhileUnsolved(rounds[1..]);
        assert forall j :: 0 < j < |rounds| ==> rounds[j] == rounds[1..][j - 1];
    }
  }

  /** A solution submitted before the clear is never the one returned:
      the step returns only what was submitted during the wait, and the
      same whatever the file held before. */
  lemma StaleSolutionIgnored(stale: Mailbox, rounds: seq<seq<string>>, v: string)
    requires CaptchaStep(stale, rounds) == Some(v)
    ensures exists i :: FirstSolvedAt(rounds, i, v)
    ensures CaptchaStep(None, rounds) == Some(v)
  {
    AwaitReturnsOnlySolutions(rounds, v);
  }

  /** With no submission before it, a round that submits one non-blank
      stripped value makes the bot proceed with exactly that value. */
  lemma SubmittedValueUsed(stale: Mailbox, quiet: seq<seq<string>>, v: string)
    requires forall j :: 0 <= j < |quiet| ==> LastSolution(quiet[j]).None?
    requires v != "" && Strip(v) == v
    ensures CaptchaStep(stale, quiet + [[v]]) == Some(v)
  {
    var rounds := quiet + [[v]];
    assert LastSolution([v]) == Some(v);
    assert FirstSolvedAt(rounds, |quiet|, v) by {
      forall j | 0 <= j < |quiet| ensures LastSolution(rounds[j]).None? {
        assert rounds[j] == quiet[j];
      }
    }
    AwaitFindsFirstSolution(rounds, |quiet|, v);
  }

  /** A stale "OLD9" in the file, one quiet poll, then "AB12" submitted:
      the bot proceeds with exactly "AB12". */
  lemma StaleThenFreshSolution()
    ensures CaptchaStep(Some("OLD9"), [[], ["AB12"]]) == Some("AB12")
  {
    assert !IsSpace('A') && !IsSpace('2');
    assert Strip("AB12") == "AB12";
    assert LastSolution([]).None?;
    SubmittedValueUsed(Some("OLD9"), [[]], "AB12");
    assert [[]] + [["AB12"]] == [[], ["AB12"]];
  }
}

=== FILE: credentials.dfy ===
/** `read_credentials` in app.py: a `KEY=value` line format with exactly
    four recognised keys. The file is given as its sequence of lines, each
    as Python's line iteration yields it (with its newline); an absent file
    is the empty sequence. */
module Credentials {
  import opened Wrappers
  import opened Text

  const Keys: set<string> := {"PASSPORT", "VISA", "NUMBER", "EMAIL"}

  /** The four credentials; a field never set holds "". */
  datatype Credentials = Credentials(passport: string, visa: string, number: string, email: string) {

    function Get(key: string): string
      requires key in Keys
    {
      if key == "PASSPORT" then passport
      else if key == "VISA" then visa
      else if key == "NUMBER" then number
      else email
    }

    function Set(key: string, value: string): (c: Credentials)
      requires key in Keys
      ensures c.Get(key) == value
      ensures forall k :: k in Keys && k != key ==> c.Get(k) == Get(k)
    {
      if key == "PASSPORT" then this.(passport := value)
      else if key == "VISA" then this.(visa := value)
      else if key == "NUMBER" then this.(number := value)
      else this.(email := value)
    }
  }

  const Default := Credentials("", "", "", "")

  lemma CutAt(s: string, i: nat)
    requires i < |s| && s[i] == '='
    ensures s == s[..i] + "=" + s[i + 1..]
  {
  }

  /** The key and value a line carries: a line holding "=" is stripped and
      cut at its first "=", so the key holds no "=" and the value may. */
  function Entry(line: string): (r: Option<(string, string)>)
    ensures r.Some? <==> '=' in line
    ensures r.Some? ==> '=' !in r.value.0 && Strip(line) == r.value.0 + "=" + r.value.1
  {
    if '=' !in line then None
    else
      var s := Strip(line);
      StripKeeps(line, '=');
      var i := Find(s, '=').value;
      CutAt(s, i);
      Some((s[..i], s[i + 1..]))
  }

  /** What each line of the file carries, in order. */
  function Entries(lines: seq<string>): (es: seq<Option<(string, string)>>)
    ensures |es| == |lines|
    ensures forall k :: 0 <= k < |lines| ==> es[k] == Entry(lines[k])
  {
    seq(|lines|, k requires 0 <= k < |lines| => Entry(lines[k]))
  }

  /** The entry gives `key` a value. */
  predicate Assigns(e: Option<(string, string)>, key: string) {
    e.Some? && e.value.0 == key
  }

  /** No entry after position `i` gives `key` a value. */
  ghost predicate LastAssigning(es: seq<Option<(string, string)>>, key: string, i: int) {
    forall j :: i < j < |es| && 0 <= j ==> !Assigns(es[j], key)
  }

  /** `v` is what `key` ends up as after the entries `es`: the value of
      the last entry assigning `key`, or "" when no entry does. */
  ghost predicate IsFinalValue(es: seq<Option<(string, string)>>, key: string, v: string) {
    || (exists i :: 0 <= i < |es| && es[i] == Some((key, v)) && LastAssigning(es, key, i))
    || (v == "" && LastAssigning(es, key, -1))
  }

  /** One iteration of the loop over the file: an assignment of a known
      key overwrites it; any other line is ignored. */
  function Apply(c: Credentials, e: Option<(string, string)>): (r: Credentials)
    ensures e.None? || e.value.0 !in Keys ==> r == c
    ensures e.Some? && e.value.0 in Keys ==> r.Get(e.value.0) == e.value.1
    ensures e.Some? && e.value.0 in Keys ==> forall k :: k in Keys && k != e.value.0 ==> r.Get(k) == c.Get(k)
  {
    match e
    case Some((k, v)) => if k in Keys then c.Set(k, v) else c
    case None => c
  }

  /** Applies the entries in order, starting from all fields "". */
  function ReadEntries(es: seq<Option<(string, string)>>): Credentials
  {
    if |es| == 0 then Default else Apply(ReadEntries(es[..|es| - 1]), es[|es| - 1])
  }

  /** After the entries, every known key holds its final value. */
  lemma {:induction false} ReadEntriesFinal(es: seq<Option<(string, string)>>, key: string)
    requires key in Keys
    ensures IsFinalValue(es, key, ReadEntries(es).Get(key))
  {
    if |es| > 0 {
      var init := es[..|es| - 1];
      var e := es[|es| - 1];
      ReadEntriesFinal(init, key);
      assert es == init + [e];
      FinalValueStep(init, e, key, ReadEntries(init).Get(key), ReadEntries(es).Get(key));
    }
  }

  /** `read_credentials` over the lines of the file. */
  function ReadCredentials(lines: seq<string>): Credentials
  {
    ReadEntries(Entries(lines))
  }

  /** Each of the four keys holds the value of the last line assigning
      it, and "" if no line does. */
  lemma ReadCredentialsFinal(lines: seq<string>)
    ensures var c := ReadCredentials(lines);
      && IsFinalValue(Entries(lines), "PASSPORT", c.passport)
      && IsFinalValue(Entries(lines), "VISA", c.visa)
      && IsFinalValue(Entries(lines), "NUMBER", c.number)
      && IsFinalValue(Entries(lines), "EMAIL", c.email)
  {
    var es := Entries(lines);
    ReadEntriesFinal(es, "PASSPORT");
    ReadEntriesFinal(es, "VISA");
    ReadEntriesFinal(es, "NUMBER");
    ReadEntriesFinal(es, "EMAIL");
  }

  /** How one more entry moves the final value of a known key. */
  lemma FinalValueStep(init: seq<Option<(string, string)>>, e: Option<(string, string)>, key: string, v: string, v': string)
    requires key in Keys
    requires IsFinalValue(init, key, v)
    requires v' == (if Assigns(e, key) then e.value.1 else v)
    ensures IsFinalValue(init + [e], key, v')
  {
    var es := init + [e];
    if Assigns(e, key) {
      assert es[|init|] == Some((key, v'));
      assert LastAssigning(es, key, |init|);
    } else if exists i :: 0 <= i < |init| && init[i] == Some((key, v)) && LastAssigning(init, key, i) {
      var i :| 0 <= i < |init| && init[i] == Some((key, v)) && LastAssigning(init, key, i);
      assert es[i] == init[i];
      assert LastAssigning(es, key, i) by {
        forall j | i < j < |es| ensures !Assigns(es[j], key) {
          if j < |init| { assert es[j] == init[j]; }
        }
      }
    } else {
      assert LastAssigning(es, key, -1) by {
        forall j | 0 <= j < |es| ensures !Assigns(es[j], key) {
          if j < |init| { assert es[j] == init[j]; }
        }
      }
    }
  }

  /** The final value is determined: nothing but the value reading yields
      qualifies. */
  lemma FinalValueUnique(es: seq<Option<(string, string)>>, key: string, v: string, w: string)
    requires IsFinalValue(es, key, v) && IsFinalValue(es, key, w)
    ensures v == w
  {
    if i :| 0 <= i < |es| && es[i] == Some((key, v)) && LastAssigning(es, key, i) {
      assert Assigns(es[i], key);
      var j :| 0 <= j < |es| && es[j] == Some((key, w)) && LastAssigning(es, key, j);
      assert Assigns(es[j], key);
      assert i == j;
    }
  }

  /** Without a credentials file every field is "". */
  lemma AbsentFileGivesDefaults()
    ensures ReadCredentials([]) == Default
  {
  }

  /** An entry that assigns no known key changes nothing, wherever it
      stands. */
  lemma {:induction false} IgnoredEntry(before: seq<Option<(string, string)>>, e: Option<(string, string)>, after: seq<Option<(string, string)>>)
    requires e.None? || e.value.0 !in Keys
    ensures ReadEntries(before + [e] + after) == ReadEntries(before + after)
    decreases |after|
  {
    var with := before + [e] + after;
    var without := before + after;
    if |after| == 0 {
      assert with[..|with| - 1] == before;
      assert without == before;
    } else {
      var a := after[..|after| - 1];
      var x := after[|after| - 1];
      IgnoredEntry(before, e, a);
      assert with[..|with| - 1] == before + [e] + a && with[|with| - 1] == x;
      assert without[..|without| - 1] == before + a && without[|without| - 1] == x;
    }
  }

  /** Reading a file split in two parses the two parts on their own. */
  lemma EntriesAppend(a: seq<string>, b: seq<string>)
    ensures Entries(a + b) == Entries(a) + Entries(b)
  {
  }

  /** Reading one more line applies its entry to what was read before. */
  lemma ReadOneMoreLine(lines: seq<string>, line: string)
    ensures ReadCredentials(lines + [line]) == Apply(ReadCredentials(lines), Entry(line))
  {
    assert Entries([line]) == [Entry(line)];
    EntriesAppend(lines, [line]);
    var es := Entries(lines) + [Entry(line)];
    assert es[..|es| - 1] == Entries(lines);
  }

  /** A line without "=" or with an unknown key changes nothing, wherever
      it stands in the file. */
  lemma IgnoredLine(before: seq<string>, line: string, after: seq<string>)
    requires Entry(line).None? || Entry(line).value.0 !in Keys
    ensures ReadCredentials(before + [line] + after) == ReadCredentials(before + after)
  {
    var one := Entries([line]);
    assert one == [Entry(line)];
    EntriesAppend(before + [line], after);
    EntriesAppend(before, [line]);
    EntriesAppend(before, after);
    assert Entries(before + [line] + after) == Entries(before) + [Entry(line)] + Entries(after);
    IgnoredEntry(Entries(before), Entry(line), Entries(after));
  }

  /** A `KEY=value` line, as read from the file with its newline, carries
      exactly that key and value, even when the value holds "=". */
  lemma AssignmentEntry(key: string, value: string)
    requires key != [] && !IsSpace(key[0]) && '=' !in key
    requires value == [] || !IsSpace(value[|value| - 1])
    ensures Entry(key + "=" + value + "\n") == Some((key, value))
  {
    var s := key + "=" + value;
    assert s[0] == key[0];
    assert !IsSpace(s[|s| - 1]);
    StripLineEnd(s);
    assert key + "=" + value + "\n" == s + "\n";
    assert (s + "\n")[|key|] == '=';
    EntryOfStrippedLine(s + "\n", key, value);
  }

  /** The four keys start with a letter and hold no "=". */
  lemma KnownKeysArePlain(key: string)
    requires key in Keys
    ensures key != [] && !IsSpace(key[0]) && '=' !in key
  {
  }

  /** A line that strips to `key=value`, with no "=" in the key, carries
      exactly that key and value. */
  lemma EntryOfStrippedLine(line: string, key: string, value: string)
    requires '=' !in key && '=' in line
    requires Strip(line) == key + "=" + value
    ensures Entry(line) == Some((key, value))
  {
    var e := Entry(line);
    FirstSeparatorUnique(e.value.0, e.value.1, key, value);
  }

  /** Text cut at its first "=" has only one such cut. */
  lemma FirstSeparatorUnique(k1: string, v1: string, k2: string, v2: string)
    requires '=' !in k1 && '=' !in k2
    requires k1 + "=" + v1 == k2 + "=" + v2
    ensures k1 == k2 && v1 == v2
  {
    var s := k1 + "=" + v1;
    assert s[..|k1|] == k1 && s[|k1|] == '=';
    assert s[..|k2|] == k2 && s[|k2|] == '=';
    FindFirst(s, '=', |k1|);
    FindFirst(s, '=', |k2|);
    assert s[|k1| + 1..] == v1;
    assert s[|k2| + 1..] == v2;
  }

  /** A later `KEY=value` line wins over earlier ones, its trailing newline
      dropped and any "=" in the value kept. */
  lemma LastLineWins(lines: seq<string>, key: string, value: string)
    requires key in Keys
    requires value == [] || !IsSpace(value[|value| - 1])
    ensures ReadCredentials(lines + [key + "=" + value + "\n"]).Get(key) == value
  {
    KnownKeysArePlain(key);
    AssignmentEntry(key, value);
    ReadOneMoreLine(lines, key + "=" + value + "\n");
  }

  /** A line that does not assign `key` leaves it as it was. */
  lemma OtherLineKeeps(lines: seq<string>, line: string, key: string)
    requires key in Keys
    requires !Assigns(Entry(line), key)
    ensures ReadCredentials(lines + [line]).Get(key) == ReadCredentials(lines).Get(key)
  {
    ReadOneMoreLine(lines, line);
  }
}

=== FILE: log_history.dfy ===
/** The bounded, coalescing log of the bot (`log` in app.py): at most three
    lines are kept; a repeated "No dates yet" message overwrites its own
    previous line instead of piling up. */
module LogHistory {
  import opened Wrappers
  import opened Text

  /** Lines kept in the history; the oldest is dropped beyond this. */
  const MaxEntries: nat := 3

  /** Messages containing this text are the coalescible "no slots" messages. */
  const NoDatesMarker := "No dates yet"

  predicate IsNoDate(msg: string) {
    Contains(msg, NoDatesMarker)
  }

  /** The stored line for `msg` logged at time `ts`: `[ts] msg`. */
  function Line(ts: string, msg: string): string {
    "[" + ts + "] " + msg
  }

  /** `history` is LOG_HISTORY, `marker` is `last_no_date_msg` and
      `lastUpdate` is the status field `last_update` (absent until the
      first call). */
  datatype LogState = LogState(history: seq<string>, marker: string, lastUpdate: Option<string>)

  /** The state at process start. */
  const Init := LogState([], "", None)

  /** The state every reachable log state satisfies: the length bound, and
      a non-empty marker names the message of the previous call, whose line
      is the newest entry. */
  ghost predicate Valid(s: LogState) {
    && |s.history| <= MaxEntries
    && (s.marker != "" ==>
          && IsNoDate(s.marker)
          && |s.history| > 0
          && s.lastUpdate.Some?
          && s.history[|s.history| - 1] == Line(s.lastUpdate.value, s.marker))
  }

  /** One call of `log(msg)` at time `ts`. */
  function Log(s: LogState, ts: string, msg: string): (r: LogState)
    ensures |r.history| > 0 && r.history[|r.history| - 1] == Line(ts, msg)
    ensures r.marker == (if IsNoDate(msg) then msg else "")
    ensures r.lastUpdate == Some(ts)
    ensures |s.history| <= MaxEntries ==> |r.history| <= MaxEntries
  {
    var line := Line(ts, msg);
    var (grown, marker) :=
      if IsNoDate(msg) then
        if s.marker == msg && |s.history| > 0 then
          (s.history[..|s.history| - 1] + [line], s.marker)
        else
          (s.history + [line], msg)
      else
        (s.history + [line], "");
    var history := if |grown| > MaxEntries then grown[1..] else grown;
    LogState(history, marker, Some(ts))
  }

  /** The text written to the log file: the entries joined by newlines. */
  function LogText(s: LogState): string {
    Join(s.history, '\n')
  }

  /** The written text determines the history when no entry holds a
      newline: splitting the file at newlines gives the entries back. */
  lemma LogTextRecoversHistory(s: LogState)
    requires |s.history| > 0
    requires forall k :: 0 <= k < |s.history| ==> '\n' !in s.history[k]
    ensures Split(LogText(s), '\n') == s.history
  {
    SplitJoin(s.history, '\n');
  }

  lemma InitValid()
    ensures Valid(Init)
  {
  }

  /** `log` keeps the state valid. */
  lemma LogPreservesValid(s: LogState, ts: string, msg: string)
    requires Valid(s)
    ensures Valid(Log(s, ts, msg))
  {
  }

  /** The new line always goes last, behind the previous entries in their
      order, and the entry it displaces, if any, is the newest previous
      one: the history is a suffix of the old history (less its last entry
      on a replacement) followed by the new line. */
  lemma LogAppendsOrReplaces(s: LogState, ts: string, msg: string)
    requires Valid(s)
    ensures var r := Log(s, ts, msg);
      var n := |s.history|;
      if IsNoDate(msg) && s.marker == msg then
        && |r.history| == n
        && r.history == s.history[..n - 1] + [Line(ts, msg)]
      else
        && |r.history| == (if n < MaxEntries then n + 1 else MaxEntries)
        && r.history == (s.history + [Line(ts, msg)])[n + 1 - |r.history|..]
  {
  }

  /** A message without "No dates yet" is appended, clears the marker,
      and only the oldest entry may go; the rest keep their order. */
  lemma OtherMessageAppends(s: LogState, ts: string, msg: string)
    requires |s.history| <= MaxEntries
    requires !IsNoDate(msg)
    ensures var r := Log(s, ts, msg);
      && r.marker == ""
      && |r.history| == (if |s.history| < MaxEntries then |s.history| + 1 else MaxEntries)
      && r.history == (s.history + [Line(ts, msg)])[|s.history| + 1 - |r.history|..]
  {
  }

  /** A no-date message that differs from the marker is appended too, and
      becomes the new marker. */
  lemma NewNoDateMessageAppends(s: LogState, ts: string, msg: string)
    requires |s.history| <= MaxEntries
    requires IsNoDate(msg) && msg != s.marker
    ensures var r := Log(s, ts, msg);
      && r.marker == msg
      && |r.history| == (if |s.history| < MaxEntries then |s.history| + 1 else MaxEntries)
      && r.history == (s.history + [Line(ts, msg)])[|s.history| + 1 - |r.history|..]
  {
  }

  /** Repeating the previous no-date message overwrites the newest entry in
      place. The `LOG_HISTORY` emptiness guard never fails in a valid state,
      and the overwritten entry is always the line of that same no-date
      message, only with the earlier timestamp. */
  lemma RepeatReplacesInPlace(s: LogState, ts: string, msg: string)
    requires Valid(s)
    requires IsNoDate(msg) && s.marker == msg
    ensures |s.history| > 0
    ensures s.history[|s.history| - 1] == Line(s.lastUpdate.value, msg)
    ensures IsNoDate(s.history[|s.history| - 1])
    ensures var r := Log(s, ts, msg);
      && |r.history| == |s.history|
      && r.history[..|r.history| - 1] == s.history[..|s.history| - 1]
      && r.history[|r.history| - 1] == Line(ts, msg)
  {
    assert Line(s.lastUpdate.value, msg) == ("[" + s.lastUpdate.value + "] ") + msg;
    ContainsAfterPrefix("[" + s.lastUpdate.value + "] ", msg, NoDatesMarker);
  }

  /** One `log` call, as recorded by the caller. */
  datatype Call = Call(ts: string, msg: string)

  /** The state after the calls, in order. */
  function LogAll(s: LogState, calls: seq<Call>): LogState
    decreases |calls|
  {
    if |calls| == 0 then s else LogAll(Log(s, calls[0].ts, calls[0].msg), calls[1..])
  }

  /** Every state reachable from a valid one is valid. */
  lemma {:induction false} LogAllPreservesValid(s: LogState, calls: seq<Call>)
    requires Valid(s)
    ensures Valid(LogAll(s, calls))
    decreases |calls|
  {
    if |calls| > 0 {
      LogPreservesValid(s, calls[0].ts, calls[0].msg);
      LogAllPreservesValid(Log(s, calls[0].ts, calls[0].msg), calls[1..]);
    }
  }

  /** From process start, the history never holds more than three entries,
      whatever is logged. */
  lemma HistoryBounded(calls: seq<Call>)
    ensures |LogAll(Init, calls).history| <= MaxEntries
  {
    InitValid();
    LogAllPreservesValid(Init, calls);
  }

  /** The same message logged at each of the times `tss`. */
  function Repeat(tss: seq<string>, msg: string): (calls: seq<Call>)
    ensures |calls| == |tss|
    ensures forall k :: 0 <= k < |tss| ==> calls[k] == Call(tss[k], msg)
  {
    if |tss| == 0 then [] else [Call(tss[0], msg)] + Repeat(tss[1..], msg)
  }

  /** N consecutive identical no-date calls leave exactly one line for that
      message, carrying the Nth timestamp, on top of what the first call
      left in front of it. */
  lemma {:induction false} RepeatedNoDateCoalesces(s: LogState, tss: seq<string>, msg: string)
    requires Valid(s)
    requires IsNoDate(msg) && |tss| > 0
    ensures var first := Log(s, tss[0], msg);
      var r := LogAll(s, Repeat(tss, msg));
      && |r.history| == |first.history|
      && r.history == first.history[..|first.history| - 1] + [Line(tss[|tss| - 1], msg)]
      && r.marker == msg
      && r.lastUpdate == Some(tss[|tss| - 1])
    decreases |tss|
  {
    var first := Log(s, tss[0], msg);
    var calls := Repeat(tss, msg);
    assert calls[1..] == Repeat(tss[1..], msg);
    LogPreservesValid(s, tss[0], msg);
    if |tss| > 1 {
      RepeatReplacesInPlace(first, tss[1], msg);
      RepeatedNoDateCoalesces(first, tss[1..], msg);
      var second := Log(first, tss[1], msg);
      assert LogAll(first, calls[1..]) == LogAll(second, Repeat(tss[2..], msg)) by {
        assert calls[1..][1..] == Repeat(tss[2..], msg);
      }
    } else {
      assert first.history == first.history[..|first.history| - 1] + [Line(tss[0], msg)];
    }
  }
}

=== FILE: monitor.dfy ===
/** One poll of the monitoring loop (app.py, after the location step): the
    detected slot labels decide the `date_found`/`date_matches` status
    fields and the message handed to `log`. */
module Monitor {
  import opened Wrappers
  import opened Text
  import opened LogHistory

  /** Logged when no slot is open: the coalescible "no slots" message. */
  const NoDatesMessage := "\U{2139}\U{FE0F} No dates yet"

  /** Start of the message logged when slots are open. */
  const HitPrefix := "\U{1F514} REAL DATE AVAILABLE! "

  /** Lower-case hexadecimal digit. */
  function HexDigit(d: nat): char
    requires d < 16
  {
    if d < 10 then '0' + d as char else 'a' + (d - 10) as char
  }

  /** The value of a lower-case hexadecimal digit. */
  function HexValue(c: char): (v: nat)
    ensures v < 16
  {
    if '0' <= c <= '9' then (c as int - '0' as int) as nat
    else if 'a' <= c <= 'f' then (c as int - 'a' as int + 10) as nat
    else 0
  }

  lemma HexDigitValue(d: nat)
    requires d < 16
    ensures HexValue(HexDigit(d)) == d
  {
  }

  /** Reads the inside of a Python string literal back: `\t`, `\n`,
      `\r` and `\xhh` stand for their characters, a backslash before
      any other character for that character, anything else for itself. */
  function Unescape(t: string): string
    decreases |t|
  {
    if |t| >= 2 && t[0] == '\\' then
      if t[1] == 't' then "\t" + Unescape(t[2..])
      else if t[1] == 'n' then "\n" + Unescape(t[2..])
      else if t[1] == 'r' then "\r" + Unescape(t[2..])
      else if t[1] == 'x' && |t| >= 4 then [(HexValue(t[2]) * 16 + HexValue(t[3])) as char] + Unescape(t[4..])
      else [t[1]] + Unescape(t[2..])
    else if |t| == 0 then ""
    else [t[0]] + Unescape(t[1..])
  }

  /** One character of a Python string literal quoted with `quote`. */
  function EscapeChar(c: char, quote: char): string {
    if c == quote || c == '\\' then ['\\', c]
    else if c == '\t' then "\\t"
    else if c == '\n' then "\\n"
    else if c == '\r' then "\\r"
    else if c < ' ' || c == '\U{7F}' then
      ['\\', 'x', HexDigit(c as nat / 16), HexDigit(c as nat % 16)]
    else [c]
  }

  /** A character `repr` writes as it is, in either quoting. */
  predicate Plain(c: char) {
    ' ' <= c < '\U{7F}' && c != '\\' && c != '\'' && c != '"'
  }

  /** Escapes every character; under either quote, text made of plain
      characters is kept as it is. */
  function EscapeAll(s: string, quote: char): (r: string)
    ensures |r| >= |s|
    ensures (quote == '\'' || quote == '"') && (forall i :: 0 <= i < |s| ==> Plain(s[i])) ==> r == s
  {
    if |s| == 0 then ""
    else
      assert forall i :: 0 <= i < |s| - 1 ==> s[1..][i] == s[i + 1];
      assert s == [s[0]] + s[1..];
      EscapeChar(s[0], quote) + EscapeAll(s[1..], quote)
  }

  /** Reading back one escaped character, in front of any text, gives
      that character. */
  lemma UnescapeChar(c: char, quote: char, rest: string)
    requires quote == '\'' || quote == '"'
    ensures Unescape(EscapeChar(c, quote) + rest) == [c] + Unescape(rest)
  {
    var e := EscapeChar(c, quote);
    if c == quote || c == '\\' || c == '\t' || c == '\n' || c == '\r' {
      assert (e + rest)[2..] == rest;
    } else if c < ' ' || c == '\U{7F}' {
      HexDigitValue(c as nat / 16);
      HexDigitValue(c as nat % 16);
      assert (e + rest)[4..] == rest;
    } else {
      assert (e + rest)[1..] == rest;
    }
  }

  /** Reading back the escaped text gives the text. */
  lemma {:induction false} UnescapeEscapeAll(s: string, quote: char)
    requires quote == '\'' || quote == '"'
    ensures Unescape(EscapeAll(s, quote)) == s
    decreases |s|
  {
    if |s| > 0 {
      UnescapeEscapeAll(s[1..], quote);
      UnescapeChar(s[0], quote, EscapeAll(s[1..], quote));
      assert s == [s[0]] + s[1..];
    }
  }

  /** Python's `repr` of a string: single quotes unless the text holds a
      single quote and no double quote; reading the inside back gives the
      text. */
  function StrRepr(s: string): (r: string)
    ensures |r| >= |s| + 2 && r[0] == r[|r| - 1] && (r[0] == '\'' || r[0] == '"')
    ensures r[0] == '"' <==> '\'' in s && '"' !in s
    ensures Unescape(r[1..|r| - 1]) == s
    ensures (forall i :: 0 <= i < |s| ==> Plain(s[i])) ==> r == "'" + s + "'"
  {
    var quote := if '\'' in s && '"' !in s then '"' else '\'';
    var r := [quote] + EscapeAll(s, quote) + [quote];
    UnescapeEscapeAll(s, quote);
    assert r[1..|r| - 1] == EscapeAll(s, quote);
    r
  }

  function ReprItems(xs: seq<string>): string
    decreases |xs|
  {
    if |xs| == 0 then ""
    else if |xs| == 1 then StrRepr(xs[0])
    else StrRepr(xs[0]) + ", " + ReprItems(xs[1..])
  }

  /** Every character of every label is plain. */
  predicate PlainLabels(xs: seq<string>) {
    forall k, i :: 0 <= k < |xs| && 0 <= i < |xs[k]| ==> Plain(xs[k][i])
  }

  /** Reference rendering of plain labels, built from the last label
      backwards: each label between single quotes, separated by `, `. */
  function Quoted(xs: seq<string>): string
    decreases |xs|
  {
    if |xs| == 0 then ""
    else if |xs| == 1 then "'" + xs[0] + "'"
    else Quoted(xs[..|xs| - 1]) + ", '" + xs[|xs| - 1] + "'"
  }

  /** The reference rendering also peels off the first label. */
  lemma {:induction false} QuotedCons(x: string, ys: seq<string>)
    requires |ys| > 0
    ensures Quoted([x] + ys) == "'" + x + "'" + ", " + Quoted(ys)
    decreases |ys|
  {
    var xs := [x] + ys;
    if |ys| == 1 {
      assert xs[..1] == [x];
    } else {
      var init := ys[..|ys| - 1];
      QuotedCons(x, init);
      assert xs[..|xs| - 1] == [x] + init;
      assert xs[|xs| - 1] == ys[|ys| - 1];
    }
  }

  /** Plain labels render as the reference rendering: every label, in
      order, between single quotes and separated by `, `. */
  lemma {:induction false} ItemsQuoted(xs: seq<string>)
    requires PlainLabels(xs)
    ensures ReprItems(xs) == Quoted(xs)
    decreases |xs|
  {
    if |xs| > 0 {
      assert forall i :: 0 <= i < |xs[0]| ==> Plain(xs[0][i]);
      assert StrRepr(xs[0]) == "'" + xs[0] + "'";
      if |xs| > 1 {
        var ys := xs[1..];
        assert forall k :: 0 <= k < |ys| ==> ys[k] == xs[k + 1];
        ItemsQuoted(ys);
        QuotedCons(xs[0], ys);
        assert [xs[0]] + ys == xs;
      }
    }
  }

  /** Python's `repr` of a list of strings, as an f-string renders it:
      only the empty list renders as `[]`, and plain labels appear in
      order, quoted and separated by `, `. */
  function ListRepr(xs: seq<string>): (r: string)
    ensures r == "[]" <==> |xs| == 0
    ensures PlainLabels(xs) ==> r == "[" + Quoted(xs) + "]"
  {
    assert |xs| > 0 ==> |ReprItems(xs)| >= 2;
    assert PlainLabels(xs) ==> ReprItems(xs) == Quoted(xs) by {
      if PlainLabels(xs) { ItemsQuoted(xs); }
    }
    "[" + ReprItems(xs) + "]"
  }

  /** The message logged when `texts` are the open slots: the hit prefix
      and then the list; it is never the "no slots" message. */
  function HitMessage(texts: seq<string>): (r: string)
    ensures |r| > |HitPrefix| + 1 && r[..|HitPrefix|] == HitPrefix
    ensures r != NoDatesMessage
    ensures PlainLabels(texts) ==> r == HitPrefix + "[" + Quoted(texts) + "]"
  {
    var r := HitPrefix + ListRepr(texts);
    assert r[0] != NoDatesMessage[0];
    r
  }

  /** Two labels as the page shows them render as Python prints the list.
      The labels are parameters fixed by the requires rather than literals
      in the ensures: with literal arguments the verifier unfolds every
      rendering function on them eagerly and runs out of resource. */
  lemma HitMessageRendersLabels(a: string, b: string)
    requires a == "12 Jan" && b == "15 Jan"
    ensures HitMessage([a, b]) == "\U{1F514} REAL DATE AVAILABLE! ['12 Jan', '15 Jan']"
  {
    DateLabelsPlain(a, b);
    assert PlainLabels([a, b]);
    assert Quoted([a, b]) == "'" + a + "'" + ", '" + b + "'" by {
      assert [a, b][..1] == [a];
    }
    DateLabelsText(a, b);
  }

  lemma DateLabelsPlain(a: string, b: string)
    requires a == "12 Jan" && b == "15 Jan"
    ensures forall i :: 0 <= i < |a| ==> Plain(a[i])
    ensures forall i :: 0 <= i < |b| ==> Plain(b[i])
  {
  }

  lemma DateLabelsText(a: string, b: string)
    requires a == "12 Jan" && b == "15 Jan"
    ensures HitPrefix + "[" + ("'" + a + "'" + ", '" + b + "'") + "]" == "\U{1F514} REAL DATE AVAILABLE! ['12 Jan', '15 Jan']"
  {
  }

  /** What one poll sets: the two status fields and the log message. */
  datatype PollDecision = PollDecision(dateFound: bool, dateMatches: seq<string>, message: string)

  /** The branch on the detection result. */
  function Decide(texts: seq<string>): (d: PollDecision)
    ensures d.dateFound <==> |texts| > 0
    ensures d.dateMatches == texts
    ensures |texts| == 0 <==> d.message == NoDatesMessage
    ensures |texts| > 0 ==> d.message == HitMessage(texts)
  {
    if |texts| > 0 then
      assert HitMessage(texts)[0] != NoDatesMessage[0];
      PollDecision(true, texts, HitMessage(texts))
    else
      PollDecision(false, [], NoDatesMessage)
  }

  /** The monitor's view of the bot state: the two status fields and the
      log. */
  datatype MonitorState = MonitorState(dateFound: bool, dateMatches: seq<string>, log: LogState)

  /** One poll that detected `texts` at time `ts`: status update, then
      `log`. */
  function Poll(m: MonitorState, ts: string, texts: seq<string>): (r: MonitorState)
    ensures r.dateFound <==> |texts| > 0
    ensures r.dateMatches == texts
    ensures r.log.lastUpdate == Some(ts)
    ensures |texts| == 0 ==> r.log.marker == NoDatesMessage
    ensures |r.log.history| > 0 && r.log.history[|r.log.history| - 1] == Line(ts, Decide(texts).message)
    ensures |m.log.history| <= MaxEntries ==> |r.log.history| <= MaxEntries
  {
    var d := Decide(texts);
    NoDatesMessageCoalesces();
    MonitorState(d.dateFound, d.dateMatches, Log(m.log, ts, d.message))
  }

  /** The "no slots" message is one the log coalesces. */
  lemma NoDatesMessageCoalesces()
    ensures IsNoDate(NoDatesMessage)
  {
    assert NoDatesMessage[3..3 + |NoDatesMarker|] == NoDatesMarker;
    assert OccursAt(NoDatesMessage, NoDatesMarker, 3);
  }

  /** A poll that found slots appends its line: it never overwrites the
      line of a preceding "no slots" poll, which stays right before it. */
  lemma HitAfterNoDatesAppends(m: MonitorState, ts: string, texts: seq<string>)
    requires Valid(m.log)
    requires |texts| > 0
    requires m.log.marker == NoDatesMessage
    ensures var r := Poll(m, ts, texts);
      var n := |m.log.history|;
      && n > 0
      && |r.log.history| == (if n < MaxEntries then n + 1 else MaxEntries)
      && r.log.history[|r.log.history| - 1] == Line(ts, HitMessage(texts))
      && r.log.history[|r.log.history| - 2] == Line(m.log.lastUpdate.value, NoDatesMessage)
  {
    var msg := HitMessage(texts);
    assert msg != NoDatesMessage by {
      assert msg[0] != NoDatesMessage[0];
    }
    HitAppendsUnlessRepeated(m, ts, texts);
    var h := m.log.history;
    var n := |h|;
    var r := Poll(m, ts, texts).log.history;
    var all := h + [Line(ts, msg)];
    assert r == all[n + 1 - |r|..];
    assert r[|r| - 2] == all[n - 1] == h[n - 1];
  }

  /** Whatever preceded it, a poll that found slots appends unless the
      previous `log` call was for exactly the same hit message. */
  lemma HitAppendsUnlessRepeated(m: MonitorState, ts: string, texts: seq<string>)
    requires Valid(m.log)
    requires |texts| > 0
    requires m.log.marker != HitMessage(texts)
    ensures var r := Poll(m, ts, texts);
      var n := |m.log.history|;
      && |r.log.history| == (if n < MaxEntries then n + 1 else MaxEntries)
      && r.log.history == (m.log.history + [Line(ts, HitMessage(texts))])[n + 1 - |r.log.history|..]
  {
    LogAppendsOrReplaces(m.log, ts, HitMessage(texts));
  }

  /** The polls with nothing detected, one at each time of `tss`. */
  function EmptyPolls(m: MonitorState, tss: seq<string>): MonitorState
    decreases |tss|
  {
    if |tss| == 0 then m else EmptyPolls(Poll(m, tss[0], []), tss[1..])
  }

  /** N empty polls in a row: the status says no slots, and the log holds
      a single "no slots" line carrying the Nth time, after what the first
      poll left in front of it. */
  lemma {:induction false} EmptyPollsCoalesce(m: MonitorState, tss: seq<string>)
    requires Valid(m.log)
    requires |tss| > 0
    ensures var first := Log(m.log, tss[0], NoDatesMessage);
      var r := EmptyPolls(m, tss);
      && !r.dateFound
      && r.dateMatches == []
      && r.log.history == first.history[..|first.history| - 1] + [Line(tss[|tss| - 1], NoDatesMessage)]
      && r.log.lastUpdate == Some(tss[|tss| - 1])
    decreases |tss|
  {
    NoDatesMessageCoalesces();
    var p := Poll(m, tss[0], []);
    assert p.log == Log(m.log, tss[0], NoDatesMessage);
    LogPreservesValid(m.log, tss[0], NoDatesMessage);
    if |tss| > 1 {
      EmptyPollsCoalesce(p, tss[1..]);
      RepeatReplacesInPlace(p.log, tss[1], NoDatesMessage);
    } else {
      var h := p.log.history;
      assert h == h[..|h| - 1] + [h[|h| - 1]];
    }
  }

  /** Entering the monitor after any other message, N empty polls add
      exactly one log line, the "no slots" line with the Nth time; the
      earlier lines keep their order and only the oldest may go. */
  lemma EmptyPollsAddOneLine(m: MonitorState, tss: seq<string>)
    requires Valid(m.log)
    requires |tss| > 0
    requires m.log.marker != NoDatesMessage
    ensures var r := EmptyPolls(m, tss);
      var n := |m.log.history|;
      && |r.log.history| == (if n < MaxEntries then n + 1 else MaxEntries)
      && r.log.history == (m.log.history + [Line(tss[|tss| - 1], NoDatesMessage)])[n + 1 - |r.log.history|..]
  {
    EmptyPollsCoalesce(m, tss);
    LogAppendsOrReplaces(m.log, tss[0], NoDatesMessage);
    var first := Log(m.log, tss[0], NoDatesMessage);
    var n := |m.log.history|;
    var k := |first.history|;
    var last := Line(tss[|tss| - 1], NoDatesMessage);
    assert first.history[..k - 1] + [last] == (m.log.history + [last])[n + 1 - k..];
  }
}

=== FILE: text.dfy ===
/** The few Python `str` operations the program relies on, on `seq<char>`:
    `str.isspace`/`str.strip`, the `in` substring test, the first-separator
    search that `split(c, 1)` performs, `sep.join` and, as its inverse, `str.split(sep)`. */
module Text {
  import opened Wrappers

  /** Python's `str.isspace` for one character: the characters that
      `str.strip()` with no argument removes. */
  predicate IsSpace(c: char) {
    || ('\t' <= c <= '\r')
    || ('\U{1C}' <= c <= '\U{1F}')
    || c == ' '
    || c == '\U{85}'
    || c == '\U{A0}'
    || c == '\U{1680}'
    || ('\U{2000}' <= c <= '\U{200A}')
    || c == '\U{2028}'
    || c == '\U{2029}'
    || c == '\U{202F}'
    || c == '\U{205F}'
    || c == '\U{3000}'
  }

  predicate AllSpace(s: string) {
    forall k :: 0 <= k < |s| ==> IsSpace(s[k])
  }

  lemma AllSpaceAppend(s: string, c: char)
    requires AllSpace(s) && IsSpace(c)
    ensures AllSpace(s + [c])
  {
    forall k | 0 <= k < |s| + 1 ensures IsSpace((s + [c])[k]) {
      if k < |s| { assert (s + [c])[k] == s[k]; }
    }
  }

  lemma AllSpacePrepend(c: char, s: string)
    requires IsSpace(c) && AllSpace(s)
    ensures AllSpace([c] + s)
  {
    forall k | 0 <= k < |s| + 1 ensures IsSpace(([c] + s)[k]) {
      if k > 0 { assert ([c] + s)[k] == s[k - 1]; }
    }
  }

  /** Number of leading whitespace characters of `s`. */
  function LeadingSpace(s: string): (n: nat)
    ensures n <= |s|
    ensures AllSpace(s[..n])
    ensures n < |s| ==> !IsSpace(s[n])
  {
    if |s| == 0 || !IsSpace(s[0]) then 0
    else
      var n := LeadingSpace(s[1..]);
      assert n + 1 < |s| ==> s[n + 1] == s[1..][n];
      assert s[..n + 1] == [s[0]] + s[1..][..n];
      AllSpacePrepend(s[0], s[1..][..n]);
      n + 1
  }

  /** Index where the trailing whitespace run of `s` starts. */
  function TrailingSpace(s: string): (n: nat)
    ensures n <= |s|
    ensures AllSpace(s[n..])
    ensures 0 < n ==> !IsSpace(s[n - 1])
  {
    if |s| == 0 || !IsSpace(s[|s| - 1]) then |s|
    else
      var init := s[..|s| - 1];
      var n := TrailingSpace(init);
      assert 0 < n ==> s[n - 1] == init[n - 1];
      assert s[n..] == init[n..] + [s[|s| - 1]];
      AllSpaceAppend(init[n..], s[|s| - 1]);
      n
  }

  /** `r` is `s` with a whitespace-only prefix `s[..i]` and a
      whitespace-only suffix removed. */
  ghost predicate TrimmedAt(s: string, r: string, i: int) {
    && 0 <= i && i + |r| <= |s|
    && r == s[i..i + |r|]
    && AllSpace(s[..i])
    && AllSpace(s[i + |r|..])
  }

  /** Python's `s.strip()`: the longest slice of `s` that neither starts
      nor ends with whitespace, obtained by dropping whitespace only. */
  function Strip(s: string): (r: string)
    ensures exists i :: TrimmedAt(s, r, i)
    ensures r == [] || (!IsSpace(r[0]) && !IsSpace(r[|r| - 1]))
  {
    var i := LeadingSpace(s);
    var j := TrailingSpace(s);
    if j <= i then
      AllSpaceCover(s, i, j);
      assert s[..|s|] == s;
      assert TrimmedAt(s, [], |s|);
      []
    else
      var r := s[i..j];
      assert r[0] == s[i] && r[|r| - 1] == s[j - 1];
      assert s[i..i + |r|] == r;
      assert TrimmedAt(s, r, i);
      r
  }

  /** A whitespace prefix and a whitespace suffix that overlap cover the
      whole text. */
  lemma AllSpaceCover(s: string, i: nat, j: nat)
    requires j <= i <= |s|
    requires AllSpace(s[..i]) && AllSpace(s[j..])
    ensures AllSpace(s)
  {
    forall k | 0 <= k < |s| ensures IsSpace(s[k]) {
      if k < i {
        assert s[..i][k] == s[k];
      } else {
        assert s[j..][k - j] == s[k];
      }
    }
  }

  /** Text that neither starts nor ends with whitespace strips to itself. */
  lemma StripUnpadded(s: string)
    requires s == [] || (!IsSpace(s[0]) && !IsSpace(s[|s| - 1]))
    ensures Strip(s) == s
  {
    if s != [] {
      assert LeadingSpace(s) == 0;
      assert TrailingSpace(s) == |s|;
      assert s[0..|s|] == s;
    }
  }

  /** Stripping twice is stripping once. */
  lemma StripIdempotent(s: string)
    ensures Strip(Strip(s)) == Strip(s)
  {
    StripUnpadded(Strip(s));
  }

  lemma StripIdempotentAll()
    ensures forall s :: Strip(Strip(s)) == Strip(s)
  {
    forall s ensures Strip(Strip(s)) == Strip(s) {
      StripIdempotent(s);
    }
  }

  /** A trailing newline, as Python's line iteration leaves it, is
      stripped away. */
  lemma StripLineEnd(s: string)
    requires s != [] && !IsSpace(s[0]) && !IsSpace(s[|s| - 1])
    ensures Strip(s + "\n") == s
  {
    var line := s + "\n";
    assert LeadingSpace(line) == 0;
    assert line[..|line| - 1] == s;
    assert TrailingSpace(s) == |s|;
    assert TrailingSpace(line) == |s|;
    assert line[0..|s|] == s;
  }

  /** A non-whitespace character of `s` survives stripping. */
  lemma StripKeeps(s: string, c: char)
    requires c in s && !IsSpace(c)
    ensures c in Strip(s)
  {
    var r := Strip(s);
    var i :| TrimmedAt(s, r, i);
    var p :| 0 <= p < |s| && s[p] == c;
    assert forall k :: 0 <= k < i ==> IsSpace(s[k]) by {
      assert forall k :: 0 <= k < i ==> s[..i][k] == s[k];
    }
    assert forall k :: i + |r| <= k < |s| ==> IsSpace(s[k]) by {
      assert forall k :: i + |r| <= k < |s| ==> s[i + |r|..][k - i - |r|] == s[k];
    }
    assert r[p - i] == c;
  }

  ghost predicate OccursAt(s: string, sub: string, i: int) {
    0 <= i && i + |sub| <= |s| && s[i..i + |sub|] == sub
  }

  /** Python's `sub in s`. */
  function Contains(s: string, sub: string): (b: bool)
    ensures b <==> exists i :: OccursAt(s, sub, i)
    decreases |s|
  {
    if |sub| > |s| then false
    else if s[..|sub|] == sub then
      assert OccursAt(s, sub, 0);
      true
    else
      var b := Contains(s[1..], sub);
      assert forall i :: OccursAt(s[1..], sub, i) ==> OccursAt(s, sub, i + 1) by {
        forall i | OccursAt(s[1..], sub, i) ensures OccursAt(s, sub, i + 1) {
          assert s[1..][i..i + |sub|] == s[i + 1..i + 1 + |sub|];
        }
      }
      assert forall i :: OccursAt(s, sub, i) ==> i > 0 && OccursAt(s[1..], sub, i - 1) by {
        forall i | OccursAt(s, sub, i) ensures i > 0 && OccursAt(s[1..], sub, i - 1) {
          assert s[1..][i - 1..i - 1 + |sub|] == s[i..i + |sub|];
        }
      }
      b
  }

  /** An occurrence in `s` is still an occurrence once text is put in front. */
  lemma ContainsAfterPrefix(p: string, s: string, sub: string)
    requires Contains(s, sub)
    ensures Contains(p + s, sub)
  {
    var i :| OccursAt(s, sub, i);
    assert (p + s)[|p| + i..|p| + i + |sub|] == s[i..i + |sub|];
    assert OccursAt(p + s, sub, |p| + i);
  }

  /** The search for the first `c` that `split(c, 1)` performs, as an
      option. */
  function Find(s: string, c: char): (r: Option<nat>)
    ensures r.None? <==> c !in s
    ensures r.Some? ==> r.value < |s| && s[r.value] == c && c !in s[..r.value]
  {
    if |s| == 0 then None
    else if s[0] == c then Some(0)
    else
      match Find(s[1..], c)
      case None => None
      case Some(k) =>
        assert s[..k + 1] == [s[0]] + s[1..][..k];
        Some(k + 1)
  }

  /** The first occurrence is the one `Find` reports. */
  lemma {:induction false} FindFirst(s: string, c: char, i: nat)
    requires i < |s| && s[i] == c && c !in s[..i]
    ensures Find(s, c) == Some(i)
  {
    if i > 0 {
      assert s[..i][0] == s[0];
      assert s[1..][..i - 1] == s[..i][1..];
      FindFirst(s[1..], c, i - 1);
    }
  }

  /** Python's `sep.join(xs)` for a one-character separator. */
  function Join(xs: seq<string>, sep: char): string
  {
    if |xs| == 0 then ""
    else if |xs| == 1 then xs[0]
    else xs[0] + [sep] + Join(xs[1..], sep)
  }

  /** Python's `s.split(sep)` for a one-character separator: the pieces
      between separators, never an empty list. */
  function Split(s: string, sep: char): (r: seq<string>)
    ensures |r| > 0
    ensures forall k :: 0 <= k < |r| ==> sep !in r[k]
    decreases |s|
  {
    match Find(s, sep)
    case None => [s]
    case Some(i) => [s[..i]] + Split(s[i + 1..], sep)
  }

  /** Splitting text that starts with a separator-free piece and a
      separator gives that piece, then the split of the rest. */
  lemma SplitFirstPiece(a: string, sep: char, rest: string)
    requires sep !in a
    ensures Split(a + [sep] + rest, sep) == [a] + Split(rest, sep)
  {
    var s := a + [sep] + rest;
    assert s[..|a|] == a;
    FindFirst(s, sep, |a|);
    assert s[|a| + 1..] == rest;
  }

  /** Splitting the joined text gives back the pieces, provided none of
      them holds the separator (an empty list joins to "" and splits to
      [""], so it is excluded). */
  lemma {:induction false} SplitJoin(xs: seq<string>, sep: char)
    requires |xs| > 0
    requires forall k :: 0 <= k < |xs| ==> sep !in xs[k]
    ensures Split(Join(xs, sep), sep) == xs
  {
    if |xs| == 1 {
      assert Find(xs[0], sep).None?;
    } else {
      SplitFirstPiece(xs[0], sep, Join(xs[1..], sep));
      SplitJoin(xs[1..], sep);
      assert xs == [xs[0]] + xs[1..];
    }
  }

  /** Joining the pieces of a split gives back the text. */
  lemma {:induction false} JoinSplit(s: string, sep: char)
    ensures Join(Split(s, sep), sep) == s
    decreases |s|
  {
    match Find(s, sep)
    case None =>
    case Some(i) =>
      var tail := Split(s[i + 1..], sep);
      JoinSplit(s[i + 1..], sep);
      assert Split(s, sep) == [s[..i]] + tail;
      JoinFirstPiece(s[..i], tail, sep);
      assert s == s[..i] + [sep] + s[i + 1..];
  }

  /** Joining a first piece in front of non-empty further pieces puts one
      separator between them. */
  lemma JoinFirstPiece(a: string, rest: seq<string>, sep: char)
    requires |rest| > 0
    ensures Join([a] + rest, sep) == a + [sep] + Join(rest, sep)
  {
    assert ([a] + rest)[1..] == rest;
  }
}

=== FILE: wrappers.dfy ===
/** The optional-value datatype used across the model: an absent file, an
    unset status field, a line without a separator. */
module Wrappers {

  datatype Option<+T> = None | Some(value: T)
}
